=== FILE: README.md ===
# strip_comment: comment and whitespace stripping of configuration files

A Dafny model of the core of `strip_comment`, a small C utility that reads a
configuration file and returns its data with comments and empty lines removed.
Two routines of `common.c` make up the core:

- `remove_comment` normalises one line. A comment marker (a single character,
  `#` in the shipped program) at the very start of a line removes the whole
  line. A marker further in cuts the line there. Trailing whitespace is then
  trimmed and exactly one newline is appended.
- `read_config_file` runs every line of the file through `remove_comment`. It
  keeps the normalised lines longer than one byte (more than the bare newline)
  and concatenates them in file order. It returns the byte count together with
  the buffer, or 0 and no buffer when nothing was kept.

The model works on the file already split into lines, as `fgets` delivers them.
A line is a `seq<char>`.

- `Text`: the C-locale `isspace` class and the trailing-whitespace trim.
- `Normalizer`:
  - `Normalize`, the pure definition of `remove_comment`;
  - `RemoveComment`, a method that follows the C code's scan and backward trim
    and is proved to compute `Normalize`;
  - the properties of a normalised line.
- `Loader`:
  - `Kept` and `Load`, the pure definition of the line loop and its result;
  - `ReadConfig`, the loop itself, proved to compute `Load`;
  - the order, filtering and counting properties.
- `AsWritten`: the C code where it differs from its evident intent. It covers
  the fixed-capacity buffer filled with `strncat` and the unbounded backward
  trim. Each is compared with the corrected definitions above.
- `Examples`: whole-file examples of the loader.

## Model

| member | source | states |
|---|---|---|
| Text.IsWs | common.c:106 | The whitespace class of `isspace` in the C locale: space, tab, newline, vertical tab, form feed and carriage return, and nothing else. |
| Text.TrimEnd | common.c:104-107 | The trimmed line is a prefix of the line. It does not end in whitespace, everything cut off is whitespace, and every non-whitespace character survives. |
| Text.TrimEndEmptyIffAllWs | common.c:105-107 | The trim leaves nothing exactly when the string holds only whitespace. |
| Text.TrimEndUnique | common.c:104-107 | Those three properties single out the trim: any prefix having them is the trim's result. |
| Text.TrimEndAppendWs | common.c:92-94 | Whitespace appended to a line, such as the newline written over the marker, is trimmed away again. |
| Text.TrimEndIdempotent | common.c:104-107 | Trimming twice gives the same line as trimming once. |
| Normalizer.FirstMarker | common.c:80-101 | The scan finds nothing exactly when the marker does not occur. Otherwise it reports an index holding the marker, with no marker before it. |
| Normalizer.ContentEnd | common.c:80-101 | The end of the content is the first marker or the end of the line. No marker lies before it. |
| Normalizer.Normalize | common.c:72-110 | The result is empty exactly when the line opens with the marker. Otherwise it ends in one newline, and the text before that newline is a marker-free prefix of the line that does not end in whitespace. The result is at most one byte longer than the line. |
| Normalizer.RemoveComment | common.c:72-110 | The left-to-right scan, the newline written over the marker and the backward trim compute Normalize. |
| Normalizer.LeadingMarkerDropsLine | common.c:84-90 | A marker at index 0 empties the line; no newline is added. |
| Normalizer.MarkerCutsLine | common.c:91-109 | A first marker at index k > 0 gives the trimmed first k characters plus one newline. |
| Normalizer.TextAfterMarkerIgnored | common.c:83-97 | Whatever follows the first marker, later markers included, does not change the result. |
| Normalizer.NoMarkerTrimsOnly | common.c:104-109 | Without a marker, the line only loses its trailing whitespace (its own newline included) and gains one newline. |
| Normalizer.BodyIsTrimmedContent | common.c:80-109 | Any line not opening with the marker normalises to its content before the first marker, trimmed, plus one newline. |
| Normalizer.NormalizeCharacterized | common.c:72-110 | This is an if-and-only-if with an independent description. For a line not opening with the marker, the result is b plus a newline exactly when b is a marker-free prefix not ending in whitespace, and everything after b is whitespace or lies at or after a marker. |
| Normalizer.NormalBodyIsResult | common.c:72-110 | One direction of NormalizeCharacterized: a body meeting the description is what Normalize produces. |
| Normalizer.ResultIsNormalBody | common.c:72-110 | The other direction of NormalizeCharacterized: what Normalize produces meets the description. |
| Normalizer.HasContentIffLong | common.c:173-174 | A normalised line passes the loader's `len > 1` test exactly when the line holds a non-whitespace character before its first marker. |
| Normalizer.LeadingTextKept | common.c:104-108 | Text up to any non-whitespace character before the marker is kept verbatim, so leading whitespace stays. |
| Normalizer.NormalizeIdempotent | common.c:72-110 | Normalising a non-empty result again changes nothing. The one exception is when the marker is the newline and the result is the bare newline. |
| Normalizer.TerminatedLineDoesNotGrow | common.c:104-109 | A line ending in whitespace, as every complete line `fgets` returns does, is not lengthened. |
| Loader.Kept | common.c:170-178 | The kept lines are at most as many as the input lines, and each is longer than the bare newline. |
| Loader.Keeps | common.c:173-174 | The loader's filter: a normalised line is kept when its `strlen` exceeds 1, that is, when it holds more than the bare newline. |
| Loader.NormalizeAll | common.c:170-171 | Every line read is normalised, one result per line, in file order; the result has as many entries as the file has lines. |
| Loader.NormalizeAllAt | common.c:170-171 | Entry i of the normalised lines is the normalisation of line i. |
| Loader.Filter | common.c:173-174 | The `len > 1` test over the normalised lines keeps, in order, only lines that pass it, and never more lines than it was given. |
| Loader.Concat | common.c:175 | The buffer the successive appends build: the kept lines joined end to end in order. |
| Loader.LengthSum | common.c:176 | `total_bytes`: the sum of the lengths of the lines it is given. |
| Loader.KeptAreNormalLines | common.c:170-178 | Every kept line ends in a newline, has no whitespace before it and holds no marker. |
| Loader.Load | common.c:167-188 | There is no buffer exactly when the count is 0, and a buffer holds exactly count bytes. The count is 0 exactly when every line is dropped. |
| Loader.ReadConfig | common.c:167-188 | The loop returns Load's result, and its count is the sum of the kept lines' lengths. |
| Loader.KeptAppend | common.c:170-179 | Lines are kept in file order: for a file split in two, the kept lines are those of the first part followed by those of the second. |
| Loader.NothingKeptIffAllDropped | common.c:174 | Nothing is kept exactly when every line normalises to at most the bare newline. |
| Loader.DroppedIffNoContent | common.c:79-174 | The loop drops a line exactly when no non-whitespace character comes before its first marker: blank lines and comment lines, indented or not. |
| Loader.DroppedLineContributesNothing | common.c:163-178 | Any line the loop drops (a comment line, indented or not, or a whitespace-only line), wherever it stands, changes neither the kept lines nor the result. |
| Loader.OutputGrowsByLine | common.c:174-178 | One round of the loop appends the normalised line to the output, or nothing when the line is dropped. |
| Loader.CountGrowsByLine | common.c:176 | One round of the loop adds the kept line's length to the count, or 0. |
| Loader.LengthSumIsConcatLength | common.c:175-176 | The summed line lengths equal the length of the concatenated lines. |
| Loader.FilterNoLonger | common.c:174 | Dropping lines never adds bytes. |
| AsWritten.StrNCat | common.c:175 | `strncat` with an `int` bound extends the buffer by a prefix of the line. It appends the whole line when the bound is negative or large enough, and exactly the bound's worth of characters otherwise. |
| AsWritten.Step | common.c:173-177 | One round of the loop as written: a line longer than 1 adds its full length to `total_bytes`, is appended by `strncat` bounded by `space_left`, and lowers `space_left` by its length; a shorter line changes nothing. |
| AsWritten.Run | common.c:167-179 | In the loop as written, `total_bytes` is the sum of the kept lengths and `space_left` falls by exactly that sum. The buffer never holds more than the total claims. |
| AsWritten.LoadAsWritten | common.c:138-188 | The result handling and the `strncat` buffer bookkeeping as written, over the bounded normaliser: there is no buffer exactly when the count is 0, and the count always equals Load's. The buffer is never longer than the count; AgreesIffOutputFits says exactly when it is shorter. |
| AsWritten.EmptyFileKeepsNothing | common.c:139-143 | A file of zero bytes keeps nothing. |
| AsWritten.RunFits | common.c:168-178 | While the kept text fits the buffer's capacity, `strncat` never cuts a line and the buffer holds all kept lines. |
| AsWritten.AgreesWhenOutputFits | common.c:145-188 | When the kept text is no longer than the file, the `strncat`/`total_bytes`/`space_left` bookkeeping as written, over the bounded normaliser, returns exactly Load's result. |
| AsWritten.RunShort | common.c:168-178 | Once the kept text outgrows a non-negative capacity, the buffer is strictly shorter than the total the loop reports, on every input. |
| AsWritten.AgreesIffOutputFits | common.c:145-188 | The `strncat`/`total_bytes`/`space_left` bookkeeping as written, over the bounded normaliser, returns exactly Load's result if and only if the kept text is no longer than the file; otherwise its buffer is shorter than its count. |
| AsWritten.TerminatedLinesFit | common.c:168-177 | When every line ends in whitespace, the kept text is no longer than the file. |
| AsWritten.NormalizeAllNoLonger | common.c:171 | Normalising lines that end in whitespace adds no bytes. |
| AsWritten.AgreesOnTerminatedFiles | common.c:145-188 | On a file whose every line ends in a newline, the `strncat`/`total_bytes`/`space_left` bookkeeping as written, over the bounded normaliser, returns exactly Load's result. |
| AsWritten.UnterminatedLastLineIsCut | common.c:173-177 | On the file "x=1\ny=2" the code as written returns a count of 8 with the 7-byte buffer "x=1\ny=2". Load returns 8 with "x=1\ny=2\n". |
| AsWritten.ExampleRun | common.c:170-178 | On that file the loop cuts the second line to the 3 bytes left, and `space_left` ends at -1. |
| AsWritten.TrimScan | common.c:105-107 | The backward trim as written stops at the last non-whitespace character. When the string is empty or all whitespace, it reaches index -1, the byte before the line. |
| AsWritten.CutAsWritten | common.c:79-102 | The string handed to the trim: empty exactly when the line is empty or opens with the marker, the line itself when there is no marker, never longer than the line. |
| AsWritten.CutThenTrim | common.c:79-109 | On every line not opening with the marker, the bounded normaliser is the bounded trim of the cut string plus one newline. |
| AsWritten.ScanUnderflowsIffDropped | common.c:79-109 | The scan as written reads before the line exactly on the lines the loader drops, for all lines and markers; on every kept line it stays inside the line. |
| AsWritten.IndentedCommentUnderflows | common.c:91-107 | "  # note\n" is cut to "  \n", and the scan as written on it reaches the byte before the line. |
| AsWritten.TrimScanAgrees | common.c:105-107 | Whenever a non-whitespace character exists, the unbounded scan keeps exactly what TrimEnd keeps. |
| AsWritten.BlankLineUnderflows | common.c:105-109 | On the line "   \n" the scan as written reads the byte before the line, while the bounded trim yields the bare newline "\n". |
| Examples.TrailingCommentLine | common.c:91-109 | "a=1 # set a\n" normalises to "a=1\n". |
| Examples.TrailingBlanksLine | common.c:104-109 | "b=2   \n" normalises to "b=2\n". |
| Examples.MixedFile | common.c:167-188 | The file "a=1 # set a\n# full comment\n\n   \nb=2   \n" loads as "a=1\nb=2\n", 8 bytes. |
| Examples.WhitespaceOnlyFile | common.c:182-187 | The file "   \n" yields a count of 0 and no buffer. |
| Examples.MarkerAbsentFile | common.c:79-80 | With marker ';' the file "x=1\n" loads unchanged, 4 bytes. |
| Examples.IndentedCommentDropped | common.c:79-174 | The indented comment line "  # note\n" is dropped by the bounded trim. The C code reads before the line on it (IndentedCommentUnderflows). |
| Examples.DropMiddleThree | common.c:170-178 | Any three dropped lines between two others leave the result unchanged. |

## Left out

- Opening, sizing and reading the file (`get_file_size`, `fopen`, `fgets`, `fclose`), `malloc`/`free` and their error paths (common.c:134-161) are left out. The file arrives as its sequence of lines, and its size is the sum of their lengths.
- The 4096-byte line buffer of `fgets` is left out: a longer line, which `fgets` delivers in pieces, is one line here. A piece cut without its newline grows by one byte exactly as an unterminated last line does, and AsWritten covers that case.
- A NUL byte inside a line is left out, and so is the NUL character as the marker. `strchr` and `strlen` treat NUL as the end of the string, and the lines here hold no NUL.
- A `char` of the model stands for one byte of the file (a value 0-255). A multi-byte UTF-8 character is several `char`s, every length and count is a number of bytes, and the marker is a single byte, as the C `char comment_char` is. The model does not restrict `char` to that range, so it also accepts markers and line contents the C cannot take; those inputs say nothing about the C code.
- `isspace` is modelled for the C locale only (space, tab, newline, vertical tab, form feed, carriage return). Other locales are left out.
- `*(p + 2) = '\0'` writes one byte past a full 4095-character line that has no newline. This overrun depends on the line buffer, which is left out.
- AsWritten.LoadAsWritten: it normalises every line with the bounded trim of Normalizer.Normalize, not the unbounded scan of common.c:105-107. So AgreesWhenOutputFits, AgreesIffOutputFits and AgreesOnTerminatedFiles cover only the buffer bookkeeping. They say nothing about lines on which the unbounded scan reads before the line. Those are exactly the lines the loader drops (Loader.DroppedIffNoContent, AsWritten.ScanUnderflowsIffDropped): blank lines, whitespace-only lines and comment lines, indented or not (second Findings row).
- Once `space_left` is negative, `strncat` receives it as a huge `size_t` (at least 2^63 with a 64-bit `size_t`) and writes past the `malloc` block of file size plus one byte. The model has no allocation, so its buffer just grows. Run states how far `space_left` falls, but the overrun itself is not modelled.
- `space_left` is an `int` initialised from a `size_t` (common.c:168). For files of 2 GiB or more the conversion wraps; the model uses unbounded integers.
- Normalizer.Normalize: a marker at index 0 yields the empty line, as the comment at common.c:86-89 says. The C code then runs the backward trim on the empty string and reads before the line (see Findings). The loader drops both that outcome and the empty line, so the choice does not change any loaded result.
- The header comment of `read_config_file` (common.c:120) says leading spaces are removed, but the code removes only trailing ones. The model follows the code (Normalizer.LeadingTextKept).
- `main` and the printing of the result (strip_comment.c) are left out, as are the declarations of common.h.
- Normalizer.NormalizeIdempotent: it requires a non-empty result. With the newline as the marker, the bare "\n" result normalises to nothing, so that case is excluded.

## Findings

| source | as written | input that shows it | evidently intended | confidence | as-written member | corrected member |
|---|---|---|---|---|---|---|
| common.c:173-177 | The buffer holds the file's size plus one byte, and `strncat(buf, line, space_left)` cuts a line that does not fit. `total_bytes` still adds the line's full length. An unterminated last line gains a newline and so outgrows the file. | The file "x=1\ny=2" (lines "x=1\n" and "y=2") with marker '#' | The count equals the number of bytes in the buffer, and the buffer holds every kept line (here "x=1\ny=2\n", 8 bytes) | not executed; medium: the buffer comes back as "x=1\ny=2", but the returned count is 8 | AsWritten.UnterminatedLastLineIsCut | Loader.ReadConfig |
| common.c:105-107 | `while (isspace(*p)) p--;` has no lower bound. It reads before the line buffer on every line the loader drops (Loader.DroppedIffNoContent): blank lines, whitespace-only lines and comment lines, indented or not. An indented comment line "  # note\n" is cut to "  \n" and the scan walks past its start. On a line emptied by a leading marker, `strlen` is 0 and the scan starts at the byte before the line. When that byte is whitespace, the scan goes further back and the C then writes before the buffer. | The line "   \n" | The trim stops at the start of the line, and a whitespace-only line becomes "\n" | not executed; high: the out-of-bounds read follows from the code alone | AsWritten.BlankLineUnderflows | Normalizer.RemoveComment |

=== FILE: as_written.dfy ===
/**
 The output buffer of `read_config_file` as common.c fills it: allocated once with
 the file's size plus one byte, filled with `strncat(buf, line, space_left)`, while
 `total_bytes` adds the full length of every kept line whether or not it fit.

 A normalised line can be one byte longer than the line read (a last line without
 a newline gains one), so the kept text can outgrow the file. The count then still
 equals the corrected loader's (Loader.Load), but the buffer lacks the tail that did
 not fit (RunShort). The two loaders agree exactly when nothing outgrows the file
 (AgreesIffOutputFits), in particular when every line ends in a newline.

 Every line here is normalised with the bounded trim of Normalizer.Normalize, not
 with the unbounded backward scan of common.c:105-107 (TrimScan). The agreement
 lemmas therefore compare the buffer bookkeeping of the code as written
 (`strncat`, `total_bytes`, `space_left`) with Loader.Load; they say nothing about
 lines on which the unbounded scan runs before the line (BlankLineUnderflows):
 every line the loader drops: blank lines, whitespace-only lines and comment
 lines, indented or not (ScanUnderflowsIffDropped).

 Once `space_left` is negative the C code passes it to `strncat` as a huge `size_t`
 and writes past the allocation; here the buffer simply grows, since the model has
 no allocation to overrun.
 */
module AsWritten {
  import opened Wrappers
  import opened Text
  import opened Normalizer
  import opened Loader

  /** The loop state of `read_config_file`: `total_bytes`, the text held in `buf`, and `space_left`. */
  datatype Acc = Acc(total: nat, buf: seq<char>, spaceLeft: int)

  /**
   `strncat(dst, src, n)` with an `int` bound passed as `size_t`: at most `n`
   characters of `src` are appended. A negative `n` converts to a `size_t` of at
   least 2^63 on a platform with a 64-bit `size_t` (2^31 with a 32-bit one), more
   than any line holds, so then all of `src` is appended.
   */
  function StrNCat(dst: seq<char>, src: seq<char>, n: int): (r: seq<char>)
    ensures dst <= r
    ensures r[|dst|..] <= src
    ensures n < 0 || |src| <= n ==> r == dst + src
    ensures 0 <= n < |src| ==> |r| == |dst| + n
  {
    if 0 <= n < |src| then dst + src[..n] else dst + src
  }

  /** One round of the loop at common.c:171-178 on the normalised line `n`. */
  function Step(acc: Acc, n: seq<char>): Acc {
    if Keeps(n) then Acc(acc.total + |n|, StrNCat(acc.buf, n, acc.spaceLeft), acc.spaceLeft - |n|)
    else acc
  }

  /**
   The loop over all lines with a buffer of `cap` usable bytes. The total is the
   sum of the kept lengths, `space_left` falls by exactly that much, and the buffer
   never holds more than the total claims.
   */
  function Run(lines: seq<seq<char>>, c: char, cap: int): (r: Acc)
    ensures r.total == LengthSum(Kept(lines, c))
    ensures r.spaceLeft == cap - r.total
    ensures |r.buf| <= r.total
    decreases |lines|
  {
    if |lines| == 0 then Acc(0, [], cap)
    else
      var i := |lines| - 1;
      assert lines[..i + 1] == lines;
      OutputGrowsByLine(lines, c, i);
      LengthSumIsConcatLength(Kept(lines, c));
      LengthSumIsConcatLength(Kept(lines[..i], c));
      Step(Run(lines[..i], c, cap), Normalize(lines[i], c))
  }

  /**
   `read_config_file` as written, the file's size being the total length of its
   lines, with each line normalised by the bounded Normalize: an empty file and a file with nothing kept both give 0 and no buffer.
   The count always agrees with the corrected loader; the buffer may be shorter.
   For a zero-byte file the C code returns 0 at common.c:140-142 without writing
   `*out_buf` at all, so the caller's pointer keeps whatever it held; the None
   here stands for "no buffer handed back", not for a NULL written by the callee.
   */
  function LoadAsWritten(lines: seq<seq<char>>, c: char): (r: Loaded)
    ensures r.out.None? <==> r.count == 0
    ensures r.count == Load(lines, c).count
    ensures r.out.Some? ==> |r.out.value| <= r.count
  {
    var fileSize := LengthSum(lines);
    LengthSumIsConcatLength(Kept(lines, c));
    if fileSize == 0 then
      EmptyFileKeepsNothing(lines, c);
      Loaded(0, None)
    else
      var a := Run(lines, c, fileSize);
      if a.total > 0 then Loaded(a.total, Some(a.buf)) else Loaded(0, None)
  }

  /** A file of zero bytes consists of empty lines only, and none of them is kept. */
  lemma {:induction false} EmptyFileKeepsNothing(lines: seq<seq<char>>, c: char)
    requires LengthSum(lines) == 0
    ensures Kept(lines, c) == []
    decreases |lines|
  {
    if |lines| > 0 {
      var i := |lines| - 1;
      EmptyFileKeepsNothing(lines[..i], c);
      assert lines[..i + 1] == lines;
      OutputGrowsByLine(lines, c, i);
      assert lines[i] == [];
      ConcatEmptyIff(Kept(lines, c));
    }
  }

  /** While the kept text fits in `cap` bytes, `strncat` never cuts and the buffer holds all of it. */
  lemma {:induction false} RunFits(lines: seq<seq<char>>, c: char, cap: int)
    requires LengthSum(Kept(lines, c)) <= cap
    ensures Run(lines, c, cap).buf == Concat(Kept(lines, c))
    decreases |lines|
  {
    if |lines| > 0 {
      var i := |lines| - 1;
      var prev := lines[..i];
      assert lines[..i + 1] == lines;
      var n := Normalize(lines[i], c);
      var before := Run(prev, c, cap);
      assert LengthSum(Kept(prev, c)) + (if Keeps(n) then |n| else 0) <= cap by {
        CountGrowsByLine(lines, c, i);
      }
      RunFits(prev, c, cap);
      StepFits(before, n);
      assert Concat(Kept(lines, c)) == Concat(Kept(prev, c)) + (if Keeps(n) then n else []) by {
        OutputGrowsByLine(lines, c, i);
      }
    }
  }

  /** A kept line no longer than `space_left` is appended whole. */
  lemma StepFits(acc: Acc, n: seq<char>)
    requires Keeps(n) ==> |n| <= acc.spaceLeft
    ensures Step(acc, n).buf == acc.buf + (if Keeps(n) then n else [])
  {
  }

  /**
   When the kept text is no longer than the file, the buffer bookkeeping as written,
   over the bounded normaliser, returns what Load returns.
   */
  lemma AgreesWhenOutputFits(lines: seq<seq<char>>, c: char)
    requires LengthSum(Kept(lines, c)) <= LengthSum(lines)
    ensures LoadAsWritten(lines, c) == Load(lines, c)
  {
    LengthSumIsConcatLength(Kept(lines, c));
    if LengthSum(lines) > 0 {
      RunFits(lines, c, LengthSum(lines));
    } else {
      EmptyFileKeepsNothing(lines, c);
    }
  }

  /**
   Once the kept text outgrows `cap` bytes, `strncat` has cut something: the buffer
   is strictly shorter than the total the loop reports.
   */
  lemma {:induction false} RunShort(lines: seq<seq<char>>, c: char, cap: int)
    requires 0 <= cap < LengthSum(Kept(lines, c))
    ensures |Run(lines, c, cap).buf| < Run(lines, c, cap).total
    decreases |lines|
  {
    if |lines| > 0 {
      var prev := lines[..|lines| - 1];
      if LengthSum(Kept(prev, c)) > cap {
        RunShort(prev, c, cap);
      } else {
        RunFits(prev, c, cap);
        LengthSumIsConcatLength(Kept(prev, c));
      }
      RunShortStep(lines, c, cap);
    }
  }

  /** The last round of RunShort, given what holds of the file without its last line. */
  lemma RunShortStep(lines: seq<seq<char>>, c: char, cap: int)
    requires |lines| > 0
    requires 0 <= cap < LengthSum(Kept(lines, c))
    requires LengthSum(Kept(lines[..|lines| - 1], c)) > cap ==>
      |Run(lines[..|lines| - 1], c, cap).buf| < Run(lines[..|lines| - 1], c, cap).total
    requires LengthSum(Kept(lines[..|lines| - 1], c)) <= cap ==>
      |Run(lines[..|lines| - 1], c, cap).buf| == Run(lines[..|lines| - 1], c, cap).total
    ensures |Run(lines, c, cap).buf| < Run(lines, c, cap).total
  {
    var i := |lines| - 1;
    var n := Normalize(lines[i], c);
    var k := LengthSum(Kept(lines[..i], c));
    assert 0 <= cap < k + (if Keeps(n) then |n| else 0) by {
      assert lines[..i + 1] == lines;
      CountGrowsByLine(lines, c, i);
    }
    StepShort(Run(lines[..i], c, cap), n, k, cap);
  }

  /**
   One round of RunShort: a buffer that already falls short stays short, since a
   negative `space_left` lets every later line through whole; a buffer that holds
   the whole total falls short once a kept line exceeds `space_left`.
   */
  lemma StepShort(before: Acc, n: seq<char>, k: nat, cap: int)
    requires before.total == k && before.spaceLeft == cap - k
    requires 0 <= cap < k + (if Keeps(n) then |n| else 0)
    requires k > cap ==> |before.buf| < before.total
    requires k <= cap ==> |before.buf| == before.total
    ensures |Step(before, n).buf| < Step(before, n).total
  {
  }

  /**
   The buffer bookkeeping as written, over the bounded normaliser, returns what Load
   returns exactly when the kept text is no longer than the file; otherwise its
   buffer is shorter than its count.
   */
  lemma AgreesIffOutputFits(lines: seq<seq<char>>, c: char)
    ensures LoadAsWritten(lines, c) == Load(lines, c) <==> LengthSum(Kept(lines, c)) <= LengthSum(lines)
    ensures LengthSum(Kept(lines, c)) > LengthSum(lines) ==>
      LoadAsWritten(lines, c).out.Some? && |LoadAsWritten(lines, c).out.value| < LoadAsWritten(lines, c).count
  {
    var fileSize := LengthSum(lines);
    if LengthSum(Kept(lines, c)) <= fileSize {
      AgreesWhenOutputFits(lines, c);
    } else {
      if fileSize == 0 {
        EmptyFileKeepsNothing(lines, c);
        assert false;
      }
      RunShort(lines, c, fileSize);
      var r := LoadAsWritten(lines, c);
      assert r.out.Some? && |r.out.value| < r.count;
      assert |Load(lines, c).out.value| == r.count;
    }
  }

  /** If every line ends in whitespace (a newline, as `fgets` leaves it), the kept text is no longer than the file. */
  lemma TerminatedLinesFit(lines: seq<seq<char>>, c: char)
    requires forall i :: 0 <= i < |lines| ==> EndsInWs(lines[i])
    ensures LengthSum(Kept(lines, c)) <= LengthSum(lines)
  {
    NormalizeAllNoLonger(lines, c);
    FilterNoLonger(NormalizeAll(lines, c));
  }

  /** Normalising lines that end in whitespace adds no bytes to the file. */
  lemma {:induction false} NormalizeAllNoLonger(lines: seq<seq<char>>, c: char)
    requires forall i :: 0 <= i < |lines| ==> EndsInWs(lines[i])
    ensures LengthSum(NormalizeAll(lines, c)) <= LengthSum(lines)
    decreases |lines|
  {
    if |lines| > 0 {
      var prev := lines[..|lines| - 1];
      var last := lines[|lines| - 1];
      forall j | 0 <= j < |prev|
        ensures EndsInWs(prev[j])
      {
        assert prev[j] == lines[j];
      }
      NormalizeAllNoLonger(prev, c);
      TerminatedLineDoesNotGrow(last, c);
      LengthSumAppendOne(NormalizeAll(prev, c), Normalize(last, c));
    }
  }

  /**
   On a file whose every line ends in a newline, the buffer bookkeeping as written,
   over the bounded normaliser, returns what Load returns.
   */
  lemma AgreesOnTerminatedFiles(lines: seq<seq<char>>, c: char)
    requires forall i :: 0 <= i < |lines| ==> |lines[i]| > 0 && lines[i][|lines[i]| - 1] == '\n'
    ensures LoadAsWritten(lines, c) == Load(lines, c)
  {
    assert forall i :: 0 <= i < |lines| ==> EndsInWs(lines[i]);
    TerminatedLinesFit(lines, c);
    AgreesWhenOutputFits(lines, c);
  }

  /** The two lines of the example below, normalised. */
  lemma ExampleLinesNormalized()
    ensures Normalize("x=1\n", '#') == "x=1\n"
    ensures Normalize("y=2", '#') == "y=2\n"
  {
    NormalizeCharacterized("x=1\n", '#', "x=1");
    NormalizeCharacterized("y=2", '#', "y=2");
  }

  /**
   The discrepancy: the file "x=1\ny=2" (no final newline) yields a count of 8, but
   the buffer holds the 7 bytes "x=1\ny=2", the newline added to the last line having
   been cut by `strncat`. The corrected loader returns the full "x=1\ny=2\n".
   */
  lemma UnterminatedLastLineIsCut()
    ensures LoadAsWritten(["x=1\n", "y=2"], '#') == Loaded(8, Some("x=1\ny=2"))
    ensures Load(["x=1\n", "y=2"], '#') == Loaded(8, Some("x=1\ny=2\n"))
  {
    var lines: seq<seq<char>> := ["x=1\n", "y=2"];
    ExampleLinesNormalized();
    assert LengthSum(lines) == 7 by {
      assert lines[..1] == ["x=1\n"];
      assert ["x=1\n"][..0] == [];
    }
    ExampleRun();
    ExampleKept();
  }

  /** The loop of the C code on the example: the second line is cut to the 3 bytes left. */
  lemma ExampleRun()
    ensures Run(["x=1\n", "y=2"], '#', 7) == Acc(8, "x=1\ny=2", -1)
  {
    var lines: seq<seq<char>> := ["x=1\n", "y=2"];
    ExampleLinesNormalized();
    assert lines[..1] == ["x=1\n"];
    assert ["x=1\n"][..0] == [];
    assert Run(["x=1\n"], '#', 7) == Acc(4, "x=1\n", 3);
    assert "y=2\n"[..3] == "y=2";
    assert StrNCat("x=1\n", "y=2\n", 3) == "x=1\ny=2";
    assert Run(lines, '#', 7) == Step(Run(lines[..1], '#', 7), Normalize(lines[1], '#'));
  }

  /** The corrected loader on the example keeps both lines whole. */
  lemma ExampleKept()
    ensures Concat(Kept(["x=1\n", "y=2"], '#')) == "x=1\ny=2\n"
  {
    ExampleLinesNormalized();
    KeptTwo("x=1\n", "y=2", '#');
    assert "x=1\n" + "y=2\n" == "x=1\ny=2\n";
  }

  /**
   The backward trim of common.c:105-107 as written: `p` starts at the last character
   (index -1 for an empty string) and moves left while it points at whitespace, with
   no test against the start of the string. The result is the last index read; -1
   means the loop dereferenced the byte before the line.
   */
  function TrimScan(s: seq<char>, p: int): (q: int)
    requires -1 <= p < |s|
    ensures -1 <= q <= p
    ensures q >= 0 ==> !IsWs(s[q]) && AllWsFrom(s[..p + 1], q + 1)
    ensures q == -1 <==> AllWsFrom(s[..p + 1], 0)
    decreases p + 1
  {
    if p < 0 then p
    else if IsWs(s[p]) then
      var q := TrimScan(s, p - 1);
      assert s[..p + 1][..p] == s[..p];
      q
    else p
  }

  /**
   The string common.c:79-102 hands to the trim: emptied by a marker at the start,
   cut at a later first marker with a newline written over it, the line itself when
   there is no marker.
   */
  function CutAsWritten(line: seq<char>, c: char): (r: seq<char>)
    ensures |r| <= |line|
    ensures c !in line ==> r == line
    ensures r == [] <==> |line| == 0 || line[0] == c
  {
    match FirstMarker(line, c)
    case None => line
    case Some(k) => if k == 0 then [] else line[..k] + ['\n']
  }

  /**
   Normalize is the bounded trim of the string the cut hands over, plus a newline,
   on every line that does not open with the marker.
   */
  lemma CutThenTrim(line: seq<char>, c: char)
    requires !(|line| > 0 && line[0] == c)
    ensures Normalize(line, c) == TrimEnd(CutAsWritten(line, c)) + ['\n']
  {
    match FirstMarker(line, c)
    case None =>
    case Some(k) =>
  }

  /**
   The unbounded scan reads the byte before the line on exactly the lines the
   loader drops: blank lines, whitespace-only lines and comment lines, indented or
   not. Every line it keeps is trimmed inside the line.
   */
  lemma ScanUnderflowsIffDropped(line: seq<char>, c: char)
    ensures TrimScan(CutAsWritten(line, c), |CutAsWritten(line, c)| - 1) == -1 <==> Dropped(line, c)
  {
    var s := CutAsWritten(line, c);
    assert s[..|s|] == s;
    TrimEndEmptyIffAllWs(s);
    if |line| > 0 && line[0] == c {
      LeadingMarkerDropsLine(line, c);
    } else {
      CutThenTrim(line, c);
    }
  }

  /**
   Whenever the scan stays inside the line, it stops where the bounded trim does:
   the kept text is TrimEnd's result.
   */
  lemma TrimScanAgrees(s: seq<char>)
    requires !AllWsFrom(s, 0)
    ensures TrimScan(s, |s| - 1) + 1 == |TrimEnd(s)|
  {
    assert s[..|s|] == s;
    var q := TrimScan(s, |s| - 1);
    assert 0 <= q && !IsWs(s[q]) && AllWsFrom(s, q + 1);
    var t := s[..q + 1];
    assert t[q] == s[q];
    TrimEndUnique(s, t);
  }

  /**
   A line of blanks and a newline sends the scan as written before the line's first
   byte; the bounded trim turns the same line into the bare newline.
   */
  lemma BlankLineUnderflows()
    ensures TrimScan("   \n", 3) == -1
    ensures Normalize("   \n", '#') == "\n"
  {
    var line := "   \n";
    assert AllWsFrom(line[..4], 0);
    assert '#' !in line;
    NoMarkerTrimsOnly(line, '#');
    TrimEndUnique(line, []);
  }

  /**
   An indented comment line is cut to its leading blanks and a newline, and the scan
   as written then runs before the line as well.
   */
  lemma IndentedCommentUnderflows()
    ensures CutAsWritten("  # note\n", '#') == "  \n"
    ensures TrimScan("  \n", 2) == -1
  {
    var line := "  # note\n";
    assert line[2] == '#' && '#' !in line[..2];
    FirstMarkerIsFirst(line, '#', 2);
    assert line[..2] + ['\n'] == "  \n";
    assert AllWsFrom("  \n"[..3], 0);
  }

}

=== FILE: examples.dfy ===
/**
 Whole-file examples of the loader: a file mixing a trailing comment, a comment
 line, blank and whitespace-only lines and trailing blanks; a file with nothing
 but whitespace; and a file in which the marker never occurs.
 */
module Examples {
  import opened Wrappers
  import opened Text
  import opened Normalizer
  import opened Loader

  /** The loader on a one-line file whose line is kept. */
  lemma LoadOne(x: seq<char>, c: char, nx: seq<char>)
    requires Normalize(x, c) == nx && |nx| > 1
    ensures Load([x], c) == Loaded(|nx|, Some(nx))
  {
    KeptSingle(x, c);
    assert Kept([x], c) == [nx];
    ConcatSingle(nx);
  }

  /** The loader on a two-line file whose lines are both kept. */
  lemma LoadTwo(x: seq<char>, y: seq<char>, c: char, nx: seq<char>, ny: seq<char>)
    requires Normalize(x, c) == nx && |nx| > 1
    requires Normalize(y, c) == ny && |ny| > 1
    ensures Load([x, y], c) == Loaded(|nx| + |ny|, Some(nx + ny))
  {
    KeptTwo(x, y, c);
  }

  /** "a=1 # set a\n" loses its comment and the blank before it. */
  lemma TrailingCommentLine()
    ensures Normalize("a=1 # set a\n", '#') == "a=1\n"
  {
    var line, head := "a=1 # set a\n", "a=1 ";
    CommentLineSplit();
    MarkerCutsLine(line, '#', 4);
    TrimEndUnique(head, "a=1");
  }

  /** Where the marker of "a=1 # set a\n" sits, and what precedes it. */
  lemma CommentLineSplit()
    ensures "a=1 # set a\n"[..4] == "a=1 " && "a=1 # set a\n"[4] == '#'
    ensures '#' !in "a=1 " && "a=1 "[..3] == "a=1" && !IsWs('1') && IsWs(' ')
  {
  }

  /** "b=2   \n" loses its trailing blanks. */
  lemma TrailingBlanksLine()
    ensures Normalize("b=2   \n", '#') == "b=2\n"
  {
    var line := "b=2   \n";
    assert Normalize(line, '#') == TrimEnd(line) + ['\n'] by {
      assert forall i :: 0 <= i < |line| ==> line[i] != '#';
      NoMarkerTrimsOnly(line, '#');
    }
    assert TrimEnd(line) == "b=2" by {
      assert line[..3] == "b=2";
      TrimEndUnique(line, "b=2");
    }
  }

  /**
   The file "a=1 # set a\n# full comment\n\n   \nb=2   \n" with marker '#' loads
   as "a=1\nb=2\n", 8 bytes.
   */
  lemma MixedFile()
    ensures Load(["a=1 # set a\n", "# full comment\n", "\n", "   \n", "b=2   \n"], '#') == Loaded(8, Some("a=1\nb=2\n"))
  {
    assert "a=1\n" + "b=2\n" == "a=1\nb=2\n";
    var a, b := "a=1 # set a\n", "b=2   \n";
    assert Load(["a=1 # set a\n", "# full comment\n", "\n", "   \n", "b=2   \n"], '#') == Load([a, b], '#') by {
      assert "# full comment\n"[0] == '#';
      assert AllWsFrom("\n", 0) && AllWsFrom("   \n", 0);
      CommentOrBlankDropped("# full comment\n", '#');
      CommentOrBlankDropped("\n", '#');
      CommentOrBlankDropped("   \n", '#');
      DropMiddleThree(a, "# full comment\n", "\n", "   \n", b, '#');
    }
    assert Load([a, b], '#') == Loaded(8, Some("a=1\nb=2\n")) by {
      TrailingCommentLine();
      TrailingBlanksLine();
      LoadTwo(a, b, '#', "a=1\n", "b=2\n");
    }
  }

  /** Three dropped lines between two others leave the load unchanged. */
  lemma DropMiddleThree(a: seq<char>, x: seq<char>, y: seq<char>, z: seq<char>, b: seq<char>, c: char)
    requires Dropped(x, c) && Dropped(y, c) && Dropped(z, c)
    ensures Load([a, x, y, z, b], c) == Load([a, b], c)
  {
    Regroup(a, x, y, z, b);
    DroppedLineContributesNothing([a], x, [y, z, b], c);
    DroppedLineContributesNothing([a], y, [z, b], c);
    DroppedLineContributesNothing([a], z, [b], c);
  }

  /** A line that opens with the marker, or holds only whitespace, is dropped. */
  lemma CommentOrBlankDropped(line: seq<char>, c: char)
    requires (|line| > 0 && line[0] == c) || AllWsFrom(line, 0)
    ensures Dropped(line, c)
  {
    DroppedIffNoContent(line, c);
    forall i | 0 <= i < |line| && !IsWs(line[i])
      ensures c in line[..i + 1]
    {
      assert line[..i + 1][0] == line[0];
    }
  }

  /** An indented comment line is dropped as well. */
  lemma IndentedCommentDropped()
    ensures Dropped("  # note\n", '#')
  {
    var line := "  # note\n";
    DroppedIffNoContent(line, '#');
    forall i | 0 <= i < |line| && !IsWs(line[i])
      ensures '#' in line[..i + 1]
    {
      assert line[0] == ' ' && line[1] == ' ';
      assert line[..i + 1][2] == '#';
    }
  }

  /** The ways DropMiddleThree splits its five lines while dropping the middle three. */
  lemma Regroup<T>(a: T, b: T, c: T, d: T, e: T)
    ensures [a, b, c, d, e] == [a] + [b] + [c, d, e]
    ensures [a] + [c, d, e] == [a] + [c] + [d, e]
    ensures [a] + [d, e] == [a] + [d] + [e]
    ensures [a] + [e] == [a, e]
  {
  }

  /** A file holding only "   \n" yields no data. */
  lemma WhitespaceOnlyFile()
    ensures Load(["   \n"], '#') == Loaded(0, None)
  {
    CommentOrBlankDropped("   \n", '#');
    DroppedLineContributesNothing([], "   \n", [], '#');
    assert [] + ["   \n"] + [] == ["   \n"];
    assert Kept([], '#') == [];
  }

  /** With marker ';' the file "x=1\n" loads unchanged, 4 bytes. */
  lemma MarkerAbsentFile()
    ensures Load(["x=1\n"], ';') == Loaded(4, Some("x=1\n"))
  {
    var line := "x=1\n";
    assert ';' !in line;
    NoMarkerTrimsOnly(line, ';');
    assert line[..3] == "x=1";
    TrimEndUnique(line, "x=1");
    LoadOne("x=1\n", ';', "x=1\n");
  }

}

=== FILE: loader.dfy ===
/**
 The line loop and result handling of `read_config_file` in common.c: every line is
 normalised, a normalised line is kept only when it is longer than one character
 (more than the bare newline), the kept lines are concatenated in file order, and
 the byte count is returned together with the buffer, or with no buffer (NULL) when
 the count is zero. The file arrives already split into lines.
 */
module Loader {
  import opened Wrappers
  import opened Text
  import opened Normalizer

  /** What `read_config_file` hands back: the byte count and the buffer stored in `*out_buf`. */
  datatype Loaded = Loaded(count: nat, out: Option<seq<char>>)

  /** The loader's filter on one normalised line: more than the bare newline. */
  predicate Keeps(n: seq<char>) {
    |n| > 1
  }

  /** The loader discards this input line. */
  predicate Dropped(line: seq<char>, c: char) {
    !Keeps(Normalize(line, c))
  }

  /** The lines in order, joined end to end. */
  function Concat(ss: seq<seq<char>>): seq<char>
    decreases |ss|
  {
    if |ss| == 0 then [] else Concat(ss[..|ss| - 1]) + ss[|ss| - 1]
  }

  /** The sum of the lengths of the lines, as `total_bytes` adds them up. */
  function LengthSum(ss: seq<seq<char>>): nat
    decreases |ss|
  {
    if |ss| == 0 then 0 else LengthSum(ss[..|ss| - 1]) + |ss[|ss| - 1]|
  }

  /** Every line normalised, in order. */
  function NormalizeAll(lines: seq<seq<char>>, c: char): (ns: seq<seq<char>>)
    ensures |ns| == |lines|
    decreases |lines|
  {
    if |lines| == 0 then [] else NormalizeAll(lines[..|lines| - 1], c) + [Normalize(lines[|lines| - 1], c)]
  }

  /** Position `i` of NormalizeAll holds the normalised line `i`. */
  lemma {:induction false} NormalizeAllAt(lines: seq<seq<char>>, c: char, i: nat)
    requires i < |lines|
    ensures NormalizeAll(lines, c)[i] == Normalize(lines[i], c)
    decreases |lines|
  {
    if i < |lines| - 1 {
      NormalizeAllAt(lines[..|lines| - 1], c, i);
    }
  }

  /** The normalised lines that pass the `len > 1` filter, in their original order. */
  function Filter(ns: seq<seq<char>>): (r: seq<seq<char>>)
    ensures |r| <= |ns|
    ensures forall j :: 0 <= j < |r| ==> Keeps(r[j])
    decreases |ns|
  {
    if |ns| == 0 then []
    else
      var n := ns[|ns| - 1];
      Filter(ns[..|ns| - 1]) + (if Keeps(n) then [n] else [])
  }

  /** Every normalised line is empty or has the shape IsNormalLine describes. */
  lemma NormalizeAllShapes(lines: seq<seq<char>>, c: char)
    ensures forall i :: 0 <= i < |lines| ==> NormalizeAll(lines, c)[i] == [] || IsNormalLine(NormalizeAll(lines, c)[i], c)
  {
    forall i | 0 <= i < |lines|
      ensures NormalizeAll(lines, c)[i] == [] || IsNormalLine(NormalizeAll(lines, c)[i], c)
    {
      NormalizeAllAt(lines, c, i);
    }
  }

  /** Every line that survives the filter comes from the input, so it shares any property all input lines have. */
  lemma {:induction false} FilterKeepsNormalLines(ns: seq<seq<char>>, c: char)
    requires forall i :: 0 <= i < |ns| ==> ns[i] == [] || IsNormalLine(ns[i], c)
    ensures forall j :: 0 <= j < |Filter(ns)| ==> IsNormalLine(Filter(ns)[j], c)
    decreases |ns|
  {
    if |ns| > 0 {
      var init := ns[..|ns| - 1];
      assert forall i :: 0 <= i < |init| ==> init[i] == ns[i];
      FilterKeepsNormalLines(init, c);
    }
  }

  /** The normalised lines the loader keeps, in input order; each is longer than the bare newline. */
  function Kept(lines: seq<seq<char>>, c: char): (r: seq<seq<char>>)
    ensures |r| <= |lines|
    ensures forall j :: 0 <= j < |r| ==> Keeps(r[j])
  {
    Filter(NormalizeAll(lines, c))
  }

  /**
   Every kept line has the shape IsNormalLine describes: a newline at the end, no
   whitespace before it, no marker in it.
   */
  lemma KeptAreNormalLines(lines: seq<seq<char>>, c: char)
    ensures forall j :: 0 <= j < |Kept(lines, c)| ==> IsNormalLine(Kept(lines, c)[j], c)
  {
    NormalizeAllShapes(lines, c);
    FilterKeepsNormalLines(NormalizeAll(lines, c), c);
  }

  /**
   The result of the loader over the whole file, with a buffer that holds every kept
   line (AsWritten models the fixed-capacity buffer of the C code).
   */
  function Load(lines: seq<seq<char>>, c: char): (r: Loaded)
    ensures r.out.None? <==> r.count == 0
    ensures r.out.Some? ==> |r.out.value| == r.count
    ensures r.count == 0 <==> forall i :: 0 <= i < |lines| ==> Dropped(lines[i], c)
  {
    var out := Concat(Kept(lines, c));
    NothingKeptIffAllDropped(lines, c);
    ConcatEmptyIff(Kept(lines, c));
    if |out| == 0 then Loaded(0, None) else Loaded(|out|, Some(out))
  }

  /** Concatenation distributes over appending lists of lines. */
  lemma {:induction false} ConcatAppend(a: seq<seq<char>>, b: seq<seq<char>>)
    ensures Concat(a + b) == Concat(a) + Concat(b)
    decreases |b|
  {
    if |b| == 0 {
      assert a + b == a;
    } else {
      var init := b[..|b| - 1];
      assert (a + b)[..|a + b| - 1] == a + init;
      assert (a + b)[|a + b| - 1] == b[|b| - 1];
      assert Concat(a + b) == Concat(a + init) + b[|b| - 1];
      ConcatAppend(a, init);
      assert Concat(b) == Concat(init) + b[|b| - 1];
    }
  }

  /** A single line concatenates to itself. */
  lemma ConcatSingle(s: seq<char>)
    ensures Concat([s]) == s
  {
    assert [s][..0] == [];
  }

  /** The byte count adds up to the length of the concatenation. */
  lemma {:induction false} LengthSumIsConcatLength(ss: seq<seq<char>>)
    ensures LengthSum(ss) == |Concat(ss)|
    decreases |ss|
  {
    if |ss| > 0 {
      LengthSumIsConcatLength(ss[..|ss| - 1]);
    }
  }

  /** Appending one line adds its length to the sum. */
  lemma LengthSumAppendOne(ss: seq<seq<char>>, s: seq<char>)
    ensures LengthSum(ss + [s]) == LengthSum(ss) + |s|
  {
    assert (ss + [s])[..|ss|] == ss;
  }

  /** A concatenation of lines longer than one character is empty only when there are no lines. */
  lemma ConcatEmptyIff(ss: seq<seq<char>>)
    requires forall j :: 0 <= j < |ss| ==> Keeps(ss[j])
    ensures |Concat(ss)| == 0 <==> |ss| == 0
  {
    if |ss| > 0 {
      assert |ss[|ss| - 1]| > 1;
    }
  }

  /** Filtering commutes with splitting: the survivors of a + b are those of a, then those of b. */
  lemma {:induction false} FilterAppend(a: seq<seq<char>>, b: seq<seq<char>>)
    ensures Filter(a + b) == Filter(a) + Filter(b)
    decreases |b|
  {
    if |b| == 0 {
      assert a + b == a;
    } else {
      assert (a + b)[..|a + b| - 1] == a + b[..|b| - 1];
      FilterAppend(a, b[..|b| - 1]);
    }
  }

  /** Dropping lines never adds bytes. */
  lemma {:induction false} FilterNoLonger(ns: seq<seq<char>>)
    ensures LengthSum(Filter(ns)) <= LengthSum(ns)
    decreases |ns|
  {
    if |ns| > 0 {
      var init, n := ns[..|ns| - 1], ns[|ns| - 1];
      FilterNoLonger(init);
      if Keeps(n) {
        assert Filter(ns) == Filter(init) + [n];
        LengthSumAppendOne(Filter(init), n);
      } else {
        assert Filter(ns) == Filter(init);
      }
    }
  }

  /** Nothing survives the filter exactly when every line is at most one character long. */
  lemma {:induction false} FilterEmptyIff(ns: seq<seq<char>>)
    ensures |Filter(ns)| == 0 <==> forall i :: 0 <= i < |ns| ==> !Keeps(ns[i])
    decreases |ns|
  {
    if |ns| > 0 {
      var init := ns[..|ns| - 1];
      FilterEmptyIff(init);
      assert forall i :: 0 <= i < |init| ==> init[i] == ns[i];
    }
  }

  /** Normalising distributes over splitting the file. */
  lemma {:induction false} NormalizeAllAppend(a: seq<seq<char>>, b: seq<seq<char>>, c: char)
    ensures NormalizeAll(a + b, c) == NormalizeAll(a, c) + NormalizeAll(b, c)
    decreases |b|
  {
    if |b| == 0 {
      assert a + b == a;
    } else {
      assert (a + b)[..|a + b| - 1] == a + b[..|b| - 1];
      NormalizeAllAppend(a, b[..|b| - 1], c);
    }
  }

  /**
   The loader keeps lines in file order: the kept lines of a file split as a + b are
   those of a followed by those of b.
   */
  lemma KeptAppend(a: seq<seq<char>>, b: seq<seq<char>>, c: char)
    ensures Kept(a + b, c) == Kept(a, c) + Kept(b, c)
  {
    NormalizeAllAppend(a, b, c);
    FilterAppend(NormalizeAll(a, c), NormalizeAll(b, c));
  }

  /** A single line is kept, as its normalised form, exactly when that form is longer than the newline. */
  lemma KeptSingle(line: seq<char>, c: char)
    ensures !Dropped(line, c) ==> Kept([line], c) == [Normalize(line, c)]
    ensures Dropped(line, c) ==> Kept([line], c) == []
  {
    var ns := NormalizeAll([line], c);
    assert ns[..0] == [];
  }

  /** A two-line file whose lines are both kept loads as their normalised forms, joined. */
  lemma KeptTwo(x: seq<char>, y: seq<char>, c: char)
    requires !Dropped(x, c) && !Dropped(y, c)
    ensures Concat(Kept([x, y], c)) == Normalize(x, c) + Normalize(y, c)
  {
    var nx, ny := Normalize(x, c), Normalize(y, c);
    KeptSingle(x, c);
    KeptSingle(y, c);
    KeptAppend([x], [y], c);
    assert [x, y] == [x] + [y];
    assert Kept([x, y], c) == [nx] + [ny];
    ConcatAppend([nx], [ny]);
    ConcatSingle(nx);
    ConcatSingle(ny);
  }

  /** Nothing is kept exactly when every line normalises to at most the bare newline. */
  lemma NothingKeptIffAllDropped(lines: seq<seq<char>>, c: char)
    ensures |Kept(lines, c)| == 0 <==> forall i :: 0 <= i < |lines| ==> Dropped(lines[i], c)
  {
    FilterEmptyIff(NormalizeAll(lines, c));
    forall i | 0 <= i < |lines|
      ensures Dropped(lines[i], c) <==> !Keeps(NormalizeAll(lines, c)[i])
    {
      NormalizeAllAt(lines, c, i);
    }
  }

  /**
   The loop drops exactly the lines with no non-whitespace character before their
   first marker: blank lines and comment lines, indented or not.
   */
  lemma DroppedIffNoContent(line: seq<char>, c: char)
    ensures Dropped(line, c) <==> forall i :: 0 <= i < |line| && !IsWs(line[i]) ==> c in line[..i + 1]
  {
    HasContentIffLong(line, c);
  }

  /** A line the loop drops contributes nothing, wherever it stands in the file. */
  lemma DroppedLineContributesNothing(a: seq<seq<char>>, line: seq<char>, b: seq<seq<char>>, c: char)
    requires Dropped(line, c)
    ensures Kept(a + [line] + b, c) == Kept(a + b, c)
    ensures Load(a + [line] + b, c) == Load(a + b, c)
  {
    KeptSingle(line, c);
    KeptAppend(a + [line], b, c);
    KeptAppend(a, [line], c);
    KeptAppend(a, b, c);
    assert Kept(a + [line], c) == Kept(a, c);
  }

  /** One round of the loader's loop: line `i` adds its normalised form to the output, or nothing when dropped. */
  lemma OutputGrowsByLine(lines: seq<seq<char>>, c: char, i: nat)
    requires i < |lines|
    ensures Concat(Kept(lines[..i + 1], c)) == Concat(Kept(lines[..i], c)) + (if Dropped(lines[i], c) then [] else Normalize(lines[i], c))
  {
    var line := Normalize(lines[i], c);
    var done := Kept(lines[..i], c);
    assert lines[..i + 1] == lines[..i] + [lines[i]];
    KeptAppend(lines[..i], [lines[i]], c);
    KeptSingle(lines[i], c);
    if Dropped(lines[i], c) {
      assert Kept(lines[..i + 1], c) == done;
    } else {
      ConcatAppend(done, [line]);
      assert Concat([line]) == line by {
        assert [line][..0] == [];
      }
    }
  }

  /** One round of the loader's loop in terms of the byte count: it grows by the kept line's length. */
  lemma CountGrowsByLine(lines: seq<seq<char>>, c: char, i: nat)
    requires i < |lines|
    ensures LengthSum(Kept(lines[..i + 1], c)) == LengthSum(Kept(lines[..i], c)) + (if Dropped(lines[i], c) then 0 else |Normalize(lines[i], c)|)
  {
    OutputGrowsByLine(lines, c, i);
    LengthSumIsConcatLength(Kept(lines[..i + 1], c));
    LengthSumIsConcatLength(Kept(lines[..i], c));
  }

  /**
   The loop of `read_config_file`: normalise each line, append it when it is longer
   than one character, add its length to the running total; no buffer when the
   total stays zero.
   */
  method ReadConfig(lines: seq<seq<char>>, c: char) returns (count: nat, out: Option<seq<char>>)
    ensures Loaded(count, out) == Load(lines, c)
    ensures count == LengthSum(Kept(lines, c))
  {
    var total: nat := 0;
    var buf: seq<char> := [];
    var i := 0;
    while i < |lines|
      invariant 0 <= i <= |lines|
      invariant buf == Concat(Kept(lines[..i], c))
      invariant total == |buf|
    {
      var line := RemoveComment(lines[i], c);
      OutputGrowsByLine(lines, c, i);
      if |line| > 1 {
        buf := buf + line;
        total := total + |line|;
      }
      i := i + 1;
    }
    assert lines[..i] == lines;
    LengthSumIsConcatLength(Kept(lines, c));
    if total > 0 {
      count, out := total, Some(buf);
    } else {
      count, out := 0, None;
    }
  }

}

=== FILE: normalizer.dfy ===
/**
 The line normaliser `remove_comment` of common.c: cut the line at the first comment
 marker (dropping the whole line when the marker opens it), trim trailing whitespace,
 and terminate the line with exactly one newline.
 */
module Normalizer {
  import opened Wrappers
  import opened Text

  /** Index of the first occurrence of the marker `c` in `line`, or None when it does not occur. */
  function FirstMarker(line: seq<char>, c: char): (k: Option<nat>)
    ensures k.None? <==> c !in line
    ensures k.Some? ==> k.value < |line| && line[k.value] == c && c !in line[..k.value]
    decreases |line|
  {
    if |line| == 0 then None
    else if line[0] == c then Some(0)
    else match FirstMarker(line[1..], c)
      case None => None
      case Some(j) =>
        assert line[1..][..j] == line[1..j + 1];
        Some(j + 1)
  }

  /**
   The shape every non-empty normalised line has: it ends in a newline, the character
   before that newline (if any) is not whitespace, and its body holds no marker.
   */
  predicate IsNormalLine(s: seq<char>, c: char) {
    |s| > 0 && s[|s| - 1] == '\n' && NoTrailingWs(s[..|s| - 1]) && c !in s[..|s| - 1]
  }

  /**
   Where the body of a normalised line ends: at the first marker, or at the end of
   the line when there is none.
   */
  function ContentEnd(line: seq<char>, c: char): (e: nat)
    ensures e <= |line|
    ensures c !in line[..e]
    ensures e < |line| ==> line[e] == c
  {
    match FirstMarker(line, c)
    case Some(k) => k
    case None => |line|
  }

  /**
   The normalised form of one line. A marker at index 0 empties the line without a
   newline; a marker at index k > 0 is overwritten by a newline and the line ends
   there; the remaining text loses its trailing whitespace and gains one newline.
   */
  function Normalize(line: seq<char>, c: char): (r: seq<char>)
    ensures r == [] <==> |line| > 0 && line[0] == c
    ensures r != [] ==> IsNormalLine(r, c)
    ensures r != [] ==> r[..|r| - 1] <= line
    ensures |r| <= |line| + 1
  {
    match FirstMarker(line, c)
    case Some(k) =>
      if k == 0 then []
      else
        var t := TrimEnd(line[..k] + ['\n']);
        TrimEndAppendWs(line[..k], ['\n']);
        assert (t + ['\n'])[..|t|] == t;
        t + ['\n']
    case None =>
      var t := TrimEnd(line);
      assert (t + ['\n'])[..|t|] == t;
      t + ['\n']
  }

  /** A line whose first character is the marker normalises to nothing. */
  lemma LeadingMarkerDropsLine(line: seq<char>, c: char)
    requires |line| > 0 && line[0] == c
    ensures Normalize(line, c) == []
  {
  }

  /**
   A first marker at index k > 0 cuts the line there: the result is the trimmed
   prefix of length k plus one newline.
   */
  lemma MarkerCutsLine(line: seq<char>, c: char, k: nat)
    requires 0 < k < |line| && line[k] == c && c !in line[..k]
    ensures Normalize(line, c) == TrimEnd(line[..k]) + ['\n']
  {
    FirstMarkerIsFirst(line, c, k);
    TrimEndAppendWs(line[..k], ['\n']);
  }

  /**
   Whatever follows the first marker (later markers included) has no effect: the
   scan stops at the first hit.
   */
  lemma TextAfterMarkerIgnored(line: seq<char>, c: char, k: nat, tail: seq<char>)
    requires k < |line| && line[k] == c && c !in line[..k]
    ensures Normalize(line[..k + 1] + tail, c) == Normalize(line, c)
  {
    var l2 := line[..k + 1] + tail;
    assert l2[..k] == line[..k];
    assert l2[k] == c;
    FirstMarkerIsFirst(line, c, k);
    FirstMarkerIsFirst(l2, c, k);
  }

  /** Helper: the first marker is at `k` when `line[k]` is the marker and none comes before. */
  lemma FirstMarkerIsFirst(line: seq<char>, c: char, k: nat)
    requires k < |line| && line[k] == c && c !in line[..k]
    ensures FirstMarker(line, c) == Some(k)
  {
  }

  /** Without a marker the line only loses its trailing whitespace (its own newline included) and gains one newline. */
  lemma NoMarkerTrimsOnly(line: seq<char>, c: char)
    requires c !in line
    ensures Normalize(line, c) == TrimEnd(line) + ['\n']
  {
  }

  /** Every line that does not open with the marker normalises to its trimmed content plus a newline. */
  lemma BodyIsTrimmedContent(line: seq<char>, c: char)
    requires !(|line| > 0 && line[0] == c)
    ensures Normalize(line, c) == TrimEnd(line[..ContentEnd(line, c)]) + ['\n']
  {
    match FirstMarker(line, c)
    case Some(k) =>
      MarkerCutsLine(line, c, k);
    case None =>
      assert line[..|line|] == line;
  }

  /**
   An independent description of a normalised body: `b` is a marker-free prefix of
   the line that does not end in whitespace, and every character after it is
   whitespace or lies at or after a marker.
   */
  predicate IsNormalBodyOf(b: seq<char>, line: seq<char>, c: char) {
    && b <= line
    && c !in b
    && NoTrailingWs(b)
    && forall i :: |b| <= i < |line| ==> IsWs(line[i]) || c in line[|b|..i + 1]
  }

  /**
   Normalize agrees with the description above, in both directions: for a line that
   does not open with the marker, its result is `b` plus one newline exactly when `b`
   is a normalised body of the line.
   */
  lemma NormalizeCharacterized(line: seq<char>, c: char, b: seq<char>)
    requires !(|line| > 0 && line[0] == c)
    ensures Normalize(line, c) == b + ['\n'] <==> IsNormalBodyOf(b, line, c)
  {
    if IsNormalBodyOf(b, line, c) {
      NormalBodyIsResult(line, c, b);
    }
    if Normalize(line, c) == b + ['\n'] {
      ResultIsNormalBody(line, c, b);
    }
  }

  /** One half of NormalizeCharacterized: a body meeting the description is what Normalize produces. */
  lemma {:induction false} NormalBodyIsResult(line: seq<char>, c: char, b: seq<char>)
    requires !(|line| > 0 && line[0] == c)
    requires IsNormalBodyOf(b, line, c)
    ensures Normalize(line, c) == b + ['\n']
  {
    var content := line[..ContentEnd(line, c)];
    BodyIsTrimmedContent(line, c);
    NormalBodyInContent(line, c, b);
    TrimEndUnique(content, b);
  }

  /** A body meeting the description ends before the first marker, and only whitespace follows it there. */
  lemma {:induction false} NormalBodyInContent(line: seq<char>, c: char, b: seq<char>)
    requires IsNormalBodyOf(b, line, c)
    ensures b <= line[..ContentEnd(line, c)]
    ensures AllWsFrom(line[..ContentEnd(line, c)], |b|)
  {
    var e := ContentEnd(line, c);
    var content := line[..e];
    assert |b| <= e;
    assert b == content[..|b|];
    forall i | |b| <= i < e
      ensures IsWs(content[i])
    {
      assert line[|b|..i + 1] == content[|b|..i + 1];
      assert content[i] == line[i];
    }
  }

  /** The other half of NormalizeCharacterized: what Normalize produces meets the description. */
  lemma {:induction false} ResultIsNormalBody(line: seq<char>, c: char, b: seq<char>)
    requires !(|line| > 0 && line[0] == c)
    requires Normalize(line, c) == b + ['\n']
    ensures IsNormalBodyOf(b, line, c)
  {
    var e := ContentEnd(line, c);
    var content := line[..e];
    var t := TrimEnd(content);
    BodyIsTrimmedContent(line, c);
    assert b == t by {
      assert (t + ['\n'])[..|t|] == t;
      assert (b + ['\n'])[..|b|] == b;
    }
    forall i | |b| <= i < |line|
      ensures IsWs(line[i]) || c in line[|b|..i + 1]
    {
      if i >= e {
        assert line[|b|..i + 1][e - |b|] == c;
      } else {
        assert content[i] == line[i];
      }
    }
  }

  /**
   A line survives the loader's `len > 1` filter exactly when it holds a
   non-whitespace character before its first marker.
   */
  lemma HasContentIffLong(line: seq<char>, c: char)
    ensures |Normalize(line, c)| > 1 <==> exists i :: 0 <= i < |line| && !IsWs(line[i]) && c !in line[..i + 1]
  {
    if |Normalize(line, c)| > 1 {
      LongLineHasContent(line, c);
    }
    if exists i :: 0 <= i < |line| && !IsWs(line[i]) && c !in line[..i + 1] {
      var i :| 0 <= i < |line| && !IsWs(line[i]) && c !in line[..i + 1];
      ContentMakesLineLong(line, c, i);
    }
  }

  /** One half of HasContentIffLong: the last body character of a long result is content before the marker. */
  lemma {:induction false} LongLineHasContent(line: seq<char>, c: char)
    requires |Normalize(line, c)| > 1
    ensures exists i :: 0 <= i < |line| && !IsWs(line[i]) && c !in line[..i + 1]
  {
    var e := ContentEnd(line, c);
    BodyIsTrimmedContent(line, c);
    var t := TrimEnd(line[..e]);
    var i := |t| - 1;
    assert !IsWs(line[i]);
    assert line[..i + 1] <= line[..e];
  }

  /** The other half of HasContentIffLong: content before the marker survives, with the newline after it. */
  lemma {:induction false} ContentMakesLineLong(line: seq<char>, c: char, i: nat)
    requires i < |line| && !IsWs(line[i]) && c !in line[..i + 1]
    ensures |Normalize(line, c)| > 1
  {
    LeadingTextKept(line, c, i);
    var r := Normalize(line, c);
    assert |line[..i + 1]| <= |r|;
    assert r[i] == line[..i + 1][i] == line[i];
    assert r[|r| - 1] == '\n';
    assert i != |r| - 1;
  }

  /**
   Only trailing whitespace goes: everything up to a non-whitespace character that
   precedes the first marker, leading whitespace included, is kept verbatim.
   */
  lemma {:induction false} LeadingTextKept(line: seq<char>, c: char, i: nat)
    requires i < |line| && !IsWs(line[i]) && c !in line[..i + 1]
    ensures line[..i + 1] <= Normalize(line, c)
  {
    assert line[0] == line[..i + 1][0];
    var e := ContentEnd(line, c);
    BodyIsTrimmedContent(line, c);
    assert line[..e][i] == line[i];
  }

  /**
   Normalising is idempotent on every non-empty result, except that with the
   newline itself as the marker the bare "\n" result turns into nothing.
   */
  lemma {:induction false} NormalizeIdempotent(line: seq<char>, c: char)
    requires Normalize(line, c) != []
    requires |Normalize(line, c)| > 1 || c != '\n'
    ensures Normalize(Normalize(line, c), c) == Normalize(line, c)
  {
    var r := Normalize(line, c);
    var b := r[..|r| - 1];
    assert r == b + ['\n'];
    assert !(|r| > 0 && r[0] == c) by {
      if |b| > 0 {
        assert b[0] == r[0];
      }
    }
    forall i | |b| <= i < |r|
      ensures IsWs(r[i]) || c in r[|b|..i + 1]
    {
      assert i == |b|;
    }
    NormalizeCharacterized(r, c, b);
  }

  /**
   A line that already ends in whitespace (as every line read by `fgets` does
   except an unterminated last one) does not grow when normalised.
   */
  lemma {:induction false} TerminatedLineDoesNotGrow(line: seq<char>, c: char)
    requires EndsInWs(line)
    ensures |Normalize(line, c)| <= |line|
  {
    if !(line[0] == c) {
      var e := ContentEnd(line, c);
      BodyIsTrimmedContent(line, c);
      if e == |line| {
        assert line[..e] == line;
      }
    }
  }

  /**
   `remove_comment` step by step: the left-to-right scan that stops at the first
   marker, then the backward trim, bounded below by the start of the line, and the
   newline written after the last kept character.
   */
  method RemoveComment(line: seq<char>, c: char) returns (r: seq<char>)
    ensures r == Normalize(line, c)
  {
    var s := line;
    if c in line {
      var i := 0;
      var start := true;
      while i < |line|
        invariant 0 <= i <= |line|
        invariant start <==> i == 0
        invariant c !in line[..i]
        invariant s == line
      {
        if line[i] == c {
          if start {
            // The whole line is a comment: nothing is kept, not even a newline.
            FirstMarkerIsFirst(line, c, i);
            return [];
          }
          s := line[..i] + ['\n'];
          FirstMarkerIsFirst(line, c, i);
          break;
        }
        i := i + 1;
        start := false;
      }
    }
    assert s == line || (FirstMarker(line, c).Some? && s == line[..FirstMarker(line, c).value] + ['\n']);
    var p := |s|;
    while p > 0 && IsWs(s[p - 1])
      invariant 0 <= p <= |s|
      invariant AllWsFrom(s, p)
    {
      p := p - 1;
    }
    TrimEndUnique(s, s[..p]);
    r := s[..p] + ['\n'];
  }

}

=== FILE: text.dfy ===
/**
 Character classes and trailing-whitespace trimming on lines held as `seq<char>`.
 A line never contains a NUL character in this model (the C code measures lines
 with `strlen`, so a NUL would end the line early).
 */
module Text {

  /** `isspace` in the C locale: space, tab, newline, vertical tab, form feed, carriage return. */
  predicate IsWs(ch: char) {
    ch == ' ' || ch == '\t' || ch == '\n' || ch == '\U{000B}' || ch == '\U{000C}' || ch == '\r'
  }

  /** `s` does not end in a whitespace character (vacuously true of the empty line). */
  predicate NoTrailingWs(s: seq<char>) {
    |s| == 0 || !IsWs(s[|s| - 1])
  }

  /** The line's last character is whitespace (as the newline `fgets` leaves is). */
  predicate EndsInWs(line: seq<char>) {
    |line| > 0 && IsWs(line[|line| - 1])
  }

  /** Every character of `s` from index `from` on is whitespace. */
  predicate AllWsFrom(s: seq<char>, from: nat) {
    forall i :: from <= i < |s| ==> IsWs(s[i])
  }

  /**
   Removes trailing whitespace, scanning backwards from the end and stopping at the
   start of the line (the C loop at common.c:105-107 has no such lower bound).
   The result is the longest prefix of `s` that does not end in whitespace and
   beyond which `s` holds only whitespace. The last ensures, that every
   non-whitespace character survives, is a corollary of the one before it.
   */
  function TrimEnd(s: seq<char>): (r: seq<char>)
    ensures r <= s
    ensures NoTrailingWs(r)
    ensures AllWsFrom(s, |r|)
    ensures forall i :: 0 <= i < |s| && !IsWs(s[i]) ==> i < |r|
    decreases |s|
  {
    if |s| > 0 && IsWs(s[|s| - 1]) then TrimEnd(s[..|s| - 1]) else s
  }

  /** The trim leaves nothing exactly when the string is all whitespace. */
  lemma TrimEndEmptyIffAllWs(s: seq<char>)
    ensures TrimEnd(s) == [] <==> AllWsFrom(s, 0)
  {
  }

  /** The three properties in TrimEnd's contract single out its result: no other prefix has them. */
  lemma TrimEndUnique(s: seq<char>, t: seq<char>)
    requires t <= s
    requires NoTrailingWs(t)
    requires AllWsFrom(s, |t|)
    ensures TrimEnd(s) == t
  {
  }

  /** Whitespace appended to a line is trimmed away again. */
  lemma TrimEndAppendWs(s: seq<char>, ws: seq<char>)
    requires AllWsFrom(ws, 0)
    ensures TrimEnd(s + ws) == TrimEnd(s)
  {
    var t := TrimEnd(s);
    var u := s + ws;
    assert t <= u by {
      assert u[..|s|] == s;
    }
    forall i | |t| <= i < |u|
      ensures IsWs(u[i])
    {
      if i < |s| {
        assert u[i] == s[i];
      } else {
        assert u[i] == ws[i - |s|];
      }
    }
    TrimEndUnique(u, t);
  }

  /** Trimming twice is trimming once. */
  lemma TrimEndIdempotent(s: seq<char>)
    ensures TrimEnd(TrimEnd(s)) == TrimEnd(s)
  {
    var t := TrimEnd(s);
    TrimEndUnique(t, t);
  }

}

=== FILE: wrappers.dfy ===
/** The Some/None datatype, used where the C code may hand back NULL. */
module Wrappers {

  datatype Option<+T> = None | Some(value: T)

}
